=== FILE: README.md ===
# shoalmate core in Dafny

A verified model of the core of `src/index.ts`. The core has two independent parts.

- **Records** (`records.dfy`, module `Records`) is the immutable fork/delta record model. A record maps variable identities to field definitions. A definition is either a frozen literal or a derivation (a getter run on every read). `declare` builds a root record. `fork` builds a child that holds only its change-set, delegates every other variable to its source, and records the source in its parent slot. `compound` merges partials, and the last one wins. The derivation helpers are `changing`, `adding`, `prepending`, `appending` and `mapping`; each computes from `this[parent][prop]`. A getter runs with `this` bound to the record being **read**, not the record that defines it. The model keeps that behaviour: `Get(self, v)` finds the nearest definition of `v` from `self` upward and evaluates it with `self`. So an inherited `adding` re-applies relative to the reader's own parent (`InheritedDerivationReapplies`, `CounterChain`).
- **Clocks** (`clocks.dfy`, module `Clocks`) is the logical clock, and it is imperative, like the source.
  - `SharedState` is the process-wide store of per-cursor keyed maps. The source updates it in place through `setStateFor` and `copyStateFromTo`; `readStateFor` only reads it.
  - `Cursor` is a class, because every `makeCursor` call allocates a fresh object.
  - `Clock` holds the counter and the current cursor. `Advance` bumps the counter, copies the current map to a fresh cursor and switches to it.
  - Readers and writers are values bound to the cursor that was current when they were made. A writer's write is dropped once its clock has moved on.
  - `UniqueCount` and `MostRecent` are loops over sequences of handles and cursors.
- `clock_scenarios.dfy` (module `ClockScenarios`) restates the clock tests of `src/index.test.ts` as verified methods over the model. The record tests are replayed as lemmas at the end of `records.dfy`.
- `options.dfy` holds the `Option` type. `None` stands for JavaScript's `undefined` from a lookup.

How the source's runtime behaviour is represented:

- **Variable identities** are `nat`s. A smaller identity was declared earlier.
- **Values** are `Undefined | NaN | Num(int) | Items(seq<Val>)`.
- **Read errors** are `Thrown(NoParent)` and `Thrown(NotIterable)`. They stand for the TypeErrors the source raises:
  - `NoParent`: `this[parent][prop]` read on a root.
  - `NotIterable`: `yield*` or `for…of` run over a value that is not iterable.
- **`mostRecent` on empty input** returns `InvalidArgument`. The source throws `Error` here.

## Model

| member | source | states |
|---|---|---|
| `Records.LookupNearest` | src/index.ts:43-49 | prototype delegation (`Object.create(source)`) finds the definition in the first change-set on the chain, own fields first and then each parent's up to the root, that defines the variable; it finds none exactly when no change-set on the chain defines it. This characterizes `Records.Lookup` over the chain `Records.Chain` |
| `Records.GetReadsChain` | src/index.ts:22-35 | `Records.Get`, the property read: a variable no record on the chain defines reads as undefined, and a frozen data property reads as itself however far up the chain it sits |
| `Records.Apply` | src/index.ts:51-98 | what a helper computes from the value it read: an error reading the parent passes through unchanged; `changing` and `adding` never throw of their own; the generator helpers succeed exactly when the value is iterable, and `NotIterable` is their only own failure; `appending` keeps the original sequence as a prefix and puts the value last, `prepending` puts the value first and keeps the original after it |
| `Records.Bind` | src/index.ts:10-12 | the function `variable` returns builds a partial that defines the variable, with the given definition, and nothing else |
| `Records.Compound` | src/index.ts:18-20 | the merged partial defines exactly the variables that some input partial defines |
| `Records.CompoundLastWins` | src/index.ts:18-20 | on a variable several partials define, the merge keeps the definition of the last partial that defines it |
| `Records.DeclareReads` | src/index.ts:22-41 | with `Records.Eval` run on a root: on a declared record, a literal reads as itself and an undefined variable reads as undefined; a parent-relative derivation throws, because a root has no parent slot |
| `Records.ForkReads` | src/index.ts:43-49 | the fork's parent slot is its source. A variable in the change-set is defined by the change-set. Any other variable delegates to the source's nearest definition, which is evaluated with the fork as `this`. An inherited literal, or no definition at all, reads exactly as on the source |
| `Records.InheritedDerivationReapplies` | src/index.ts:22-30 | `Records.Eval` of a parent-relative getter runs with `this` bound to the reader (`properties[prop].call(this)`): an inherited parent-relative derivation, read on a fork that does not override it, starts from the fork's source (the reader's parent), not from the record above the one that defined it |
| `Records.CalcReadsReader` | src/index.ts:22-30 | `Records.Eval` of a calculated field reads the reader's own fields: a calculated field inherited by a fork is computed from the fork's own fields; if the fork overrides the input with a literal, the field recomputes from that literal |
| `Records.ChangingReads` | src/index.ts:51-58 | forked onto a source, `changing(v, f)` reads as `f` of the source's value; an error reading the source passes through; on a root it throws |
| `Records.AddingReads` | src/index.ts:60-67 | forked onto a source, `adding(v, n)` reads as the source's number plus `n`, or NaN from undefined; an error passes through; on a root it throws |
| `Records.PrependingReads` | src/index.ts:69-77 | forked onto a source, `prepending(v, x)` reads as `x` followed by the source's sequence; a value that is not iterable throws; an error passes through; on a root it throws |
| `Records.AppendingReads` | src/index.ts:79-87 | forked onto a source, `appending(v, x)` reads as the source's sequence followed by `x`; a value that is not iterable throws; an error passes through; on a root it throws |
| `Records.MapItems` | src/index.ts:89-98 | the drained `mapping` generator has the same length as its input, with `f` applied to each element in order |
| `Records.MappingReads` | src/index.ts:89-98 | forked onto a source, `mapping(v, f)` reads as a sequence of the source's length whose i-th element is `f` of the source's i-th; a value that is not iterable throws; an error passes through; on a root it throws |
| `Records.AddingComposes` | src/index.ts:60-67 | `k >= 1` successive `adding(v, n)` forks read as one `adding(v, k * n)` fork on the same base |
| `Records.AppendingAccumulates` | src/index.ts:79-87 | a chain of `appending` forks reads as the base sequence followed by each appended value exactly once, in fork order |
| `Records.DoubleCounterRecomputes` | src/index.test.ts:200-217 | a calculated `DoubleCounter` declared on the root reads 14, and on a fork that overrides `Counter` with 11 it reads 22 |
| `Records.ChangingChain` | src/index.test.ts:220-236 | a hand-written `this[parent][Counter] + 1` getter and then `changing(Counter, n => n + 1)` give 4 and then 5 |
| `Records.CounterChain` | src/index.test.ts:238-254 | forks with `adding`, a hand-written getter and `adding` again read 3, 4, 5, 6; a further fork that overrides nothing reads 7 |
| `Records.TodosAppend` | src/index.test.ts:256-286 | appends read in order; a sibling fork of the root sees only its own append; the root still reads its literal; `prepending` puts the value first |
| `Clocks.Cursor.constructor` | src/index.ts:104-106 | a cursor is a fresh object that carries the number it was made with |
| `Clocks.CursorNumber` | src/index.ts:108-110 | `getCursorNumber` never gives 0, because the `or -1` fallback turns cursor 0 into -1; a positive result is the cursor's own number |
| `Clocks.CursorNumberKeepsOrder` | src/index.ts:108-110 | mapping cursor 0 to -1 (the `or -1` fallback) preserves both the order and the equality of cursor numbers |
| `Clocks.SharedState.constructor` | src/index.ts:112 | the store starts with no cursor maps |
| `Clocks.SharedState.ReadStateFor` | src/index.ts:183-188 | `readStateFor(c)(k)` is undefined exactly when the cursor has no map or its map lacks the key; otherwise it is the value stored under the key |
| `Clocks.SharedState.SetStateFor` | src/index.ts:183-201 | after `setStateFor(c)(k, v)`, reading `(c, k)` gives `v`; the cursor's map is created on first write; no other key of `c` and no other cursor's map changes |
| `Clocks.SharedState.CopyStateFromTo` | src/index.ts:114-118 | the target cursor's map becomes a copy of the source cursor's map (empty if it has none); every other cursor's map is untouched |
| `Clocks.Clock.constructor` | src/index.ts:129-133 | a new clock is at time 0, on a fresh cursor numbered 0 that has no state in the store |
| `Clocks.Clock.Reader` | src/index.ts:134-140 | a reader is bound to the store and to the cursor current at the call |
| `Clocks.BoundReader.Read` | src/index.ts:134-140 | a reader reads its bound cursor's map as the store holds it at the call, not a snapshot taken when the reader was made, so it sees later writes to that cursor |
| `Clocks.Clock.Writer` | src/index.ts:141-154 | a writer is bound to its clock and to the cursor current at the call |
| `Clocks.BoundWriter.Write` | src/index.ts:143-150 | a write lands on the bound cursor while that cursor is still the clock's current one; after an advance it leaves the store unchanged |
| `Clocks.Clock.Advance` | src/index.ts:155-160 | the time goes up by one; a fresh cursor, distinct from the old one, becomes current; its map is a copy of the old current map, and every other map stays the same |
| `Clocks.ToPrimitive` | src/index.ts:137-152 | the key `h[Symbol.toPrimitive]()` gives carries the cursor the handle stands for (`Handle.BoundCursor`: a bare cursor itself, a reader's or writer's bound cursor), and it is the primitive symbol exactly when the handle is a bare cursor |
| `Clocks.BoundCursors` | src/index.ts:161-167 | the set is exactly the cursors the handles stand for, and there are no more distinct cursors than handles |
| `Clocks.BoundCursorsSnoc` | src/index.ts:161-167 | one more handle raises the count by one exactly when its cursor has not been seen yet, so duplicates count once |
| `Clocks.UniqueCount` | src/index.ts:161-167 | the count is the number of distinct cursors the handles stand for (corrected; see Findings) |
| `Clocks.PrimitiveKeys` | src/index.ts:161-167 | the set is exactly the `Symbol.toPrimitive` keys of the handles, and there are no more keys than handles |
| `Clocks.PrimitiveKeysSnoc` | src/index.ts:163-165 | one more handle adds exactly its key to the set |
| `Clocks.UniqueCountAsWritten` | src/index.ts:161-167 | the count is the number of distinct `Symbol.toPrimitive` keys, as the source computes it |
| `Clocks.MixedHandlesCountedTwice` | src/index.ts:161-167 | a cursor and a reader bound to it are one cursor but two keys as written |
| `Clocks.AsWrittenAgreesOnFunctions` | src/index.ts:161-167 | when every handle is a reader or writer, the as-written keys correspond one to one with the cursors, so both counts agree |
| `Clocks.ObjectKeysCount` | src/index.ts:137-152 | distinct cursors give distinct reader/writer keys |
| `Clocks.MostRecent` | src/index.ts:168-179 | an empty input gives `InvalidArgument`, and only an empty input does. Otherwise the result is the earliest cursor with the highest cursor number (strict `>` keeps the first on ties), and no input cursor has a higher logical time |
| `ClockScenarios.NewClockHasNoState` | src/index.test.ts:423-426 | reading any key of a new clock's cursor is undefined |
| `ClockScenarios.StoresState` | src/index.test.ts:438-445 | a value set on the current cursor reads back directly and through a reader |
| `ClockScenarios.RemembersAfterAdvance` | src/index.test.ts:455-465 | a value written before an advance is read on the new cursor, through the old reader and through a new reader |
| `ClockScenarios.CopiesOnAdvance` | src/index.test.ts:467-483 | after an advance, the writes to the old cursor (7) and to the new one (9) stay apart |
| `ClockScenarios.IgnoresStaleWriter` | src/index.test.ts:485-497 | a writer made before an advance has no effect after it |
| `ClockScenarios.CountsUniqueReaders` | src/index.test.ts:499-516 | the unique counts of the reader lists are 0, 1, 1, 1, 2, 2, both from `uniqueCount` as written and from the corrected count |
| `ClockScenarios.CountPairs` | src/index.test.ts:510-515 | for two handles on one cursor and two on another, the counts are 0, 1, 1, 1, 2, 2 |
| `ClockScenarios.CountPairsAsWritten` | src/index.test.ts:510-515 | for two reader or writer handles on one cursor and two on another, `uniqueCount` as written gives 0, 1, 1, 1, 2, 2 |
| `ClockScenarios.MixedCursorAndReader` | src/index.ts:161-167 | a cursor plus its own reader counts 2 as written and 1 once corrected |
| `ClockScenarios.MostRecentAfterAdvances` | src/index.ts:168-179 | after two advances, the most recent of the three cursors is number 2; with no cursors the call fails |

## Left out

- `variable` (src/index.ts:6-16): the model does not allocate symbols. A variable is a `nat` chosen by the caller, and its label is not modelled. `Records.Bind` is the one-field partial that the returned function builds.
- `defineInternal` (src/index.ts:22-35) is not a separate member. A partial is used directly as a record's field table. A `Lit` entry is a frozen data property, and any other entry is a getter. Property descriptors, `Object.freeze`, enumerability, symbol-key enumeration, `JSON.stringify` and `Object.isFrozen` are JavaScript runtime facts. Immutable datatypes stand in for them.
- Getters written by hand are a closed set of kinds. `Calc(w, f)` reads one field of `this`. `Derive(prop, op)` reads `this[parent][prop]`. Arbitrary closures over `this` are not modelled.
- One-argument derivations such as `(self) => self[Counter] * 2` (src/index.test.ts:134) are not modelled. `defineInternal` calls a getter as `properties[prop].call(this)` with no argument (src/index.ts:28). So through `declare` or `fork` as written, `self` would be undefined and the read would throw a TypeError. The test that uses this form goes through `create`, which is not part of this model.
- Records.Get: a `Calc` on variable `v` may only read a variable declared earlier (`w < v`). Otherwise it yields `Thrown(ReadsLater)` instead of evaluating. This keeps reads terminating. The source would evaluate such a read, and a true cycle would overflow the stack.
- Records.Apply: the source's generators are lazy, and that is not modelled. A read drains the sequence, and any error it meets is thrown at the read. In the source, reading a `prepending`, `appending` or `mapping` field only creates a generator. For `prepending` over a value that is not iterable, the first `next()` yields the prepended value and the `TypeError` comes at the second. For `appending` and `mapping` it comes at the first `next()`. A generator helper declared on a root (the model's `Thrown(NoParent)` at the read) throws in the source only when it is first iterated.
- Records.Apply: `adding` to a value that is not a number gives NaN. That matches JavaScript for `undefined` and NaN. For an array, the source would concatenate strings. Its TypeScript signature (`Variable<number>`) rules that case out.
- Records.AddingComposes: model numbers are exact, unbounded integers, and Records.Apply adds exactly. In the source, `current + amount` is IEEE-754 double addition, which rounds once a sum passes 2^53 in magnitude. For example, two `adding(v, 1)` forks on 2^53 read 2^53, while one `adding(v, 2)` fork reads 2^53 + 2. In the source the composition holds only while every partial sum is a safe integer. Double rounding is not modelled.
- Records.Doubled: multiplying a value that is not a number gives NaN. JavaScript coercion of arrays is not modelled.
- Several tests fork from a bare partial (src/index.test.ts:277-300). In the model, a fork's source is always a record. A declared record with the same literals reads the same.
- Values are opaque integers and sequences. Floats (such as `Pi`) and strings (such as `toUpperCase`) are not modelled.
- The store's WeakMap lifetime is not modelled. The module-level `sharedState` becomes a parameter of the `Clock` constructor. Callers are expected to pass the same `SharedState` to every clock, and the model does not enforce that. Each scenario in `clock_scenarios.dfy` builds its own store.
- The `Symbol.toPrimitive`/`cursorSymbol` plumbing on readers and writers is modelled only through `Handle.BoundCursor` and `ToPrimitive`. A cursor is never created without a description, so the unreachable `?? "-1"` branch of `getCursorNumber` is not modelled.
- `create`, `struct`, `Parent`, `VariableValue` and `createHistory` (History push/undo/redo) are not part of this model. The tests import them, but `src/index.ts` does not define them.
- The record scenarios (`DoubleCounterRecomputes`, `ChangingChain`, `CounterChain`, `TodosAppend`) read the tests' `create({...})` as `declare` (a `Declared` record) and the tests' `this[Parent]` as `this[parent]`. This identification is assumed. `create` and `Parent` are not part of this model.
- `copyStateFromTo` copies a cursor's map shallowly (`new Map(state)`), so an object stored under a key is shared by the old and the new cursor, and mutating it through one shows through the other. Stored values here are immutable integers (`Value = int`), so that aliasing is not modelled. Only the maps themselves are separate.

## Findings

| source | as written | input that shows it | evidently intended | confidence | as-written member | corrected member |
|---|---|---|---|---|---|---|
| src/index.ts:161-167 | `uniqueCount` keys each item by `s[Symbol.toPrimitive]()`. For a reader or writer that is the cursor object. For a bare cursor (a frozen `Object(Symbol(n))`) it is the primitive symbol inside it. So the two are different `Set` members | `uniqueCount([clock.currentCursor, clock.reader()])` returns 2, though both stand for one cursor | count distinct cursor identities among cursors and reader/writer functions, which gives 1 here | not executed; high (`Symbol.prototype[Symbol.toPrimitive]` returns the primitive symbol) | `Clocks.UniqueCountAsWritten`, `Clocks.MixedHandlesCountedTwice` | `Clocks.UniqueCount` |

=== FILE: clock_scenarios.dfy ===
/**
 * The clock scenarios of src/index.test.ts, restated as verified methods over
 * the model. Each
 * method builds its own store and clock and returns what the scenario reads.
 */
module ClockScenarios {
  import opened Options
  import opened Clocks

  /** A new clock's cursor has no state. */
  method NewClockHasNoState(key: Key) returns (r: Option<Value>)
    ensures r == None
  {
    var store := new SharedState();
    var clock := new Clock(store);
    r := store.ReadStateFor(clock.current, key);
  }

  /** A value set on the current cursor reads back directly and through a reader. */
  method StoresState(key: Key) returns (direct: Option<Value>, viaReader: Option<Value>)
    ensures direct == Some(7) && viaReader == Some(7)
  {
    var store := new SharedState();
    var clock := new Clock(store);
    store.SetStateFor(clock.current, key, 7);
    direct := store.ReadStateFor(clock.current, key);
    var reader := clock.Reader();
    viaReader := reader.Read(key);
  }

  /** A reader made before a write sees it; after an advance the new cursor
      starts from a copy, so the old reader and a new one both read it. */
  method RemembersAfterAdvance(key: Key) returns (current: Option<Value>, early: Option<Value>, late: Option<Value>)
    ensures current == Some(7) && early == Some(7) && late == Some(7)
  {
    var store := new SharedState();
    var clock := new Clock(store);
    var reader := clock.Reader();
    store.SetStateFor(clock.current, key, 7);
    clock.Advance();
    current := store.ReadStateFor(clock.current, key);
    early := reader.Read(key);
    var reader2 := clock.Reader();
    late := reader2.Read(key);
  }

  /** After an advance, a write to the new cursor is invisible through the old one. */
  method CopiesOnAdvance(key: Key)
    returns (onA: Option<Value>, onB: Option<Value>, early: Option<Value>, late: Option<Value>)
    ensures onA == Some(7) && onB == Some(9) && early == Some(7) && late == Some(9)
  {
    var store := new SharedState();
    var clock := new Clock(store);
    var reader := clock.Reader();
    var cursorA := clock.current;
    store.SetStateFor(cursorA, key, 7);
    clock.Advance();
    var cursorB := clock.current;
    store.SetStateFor(cursorB, key, 9);
    onA := store.ReadStateFor(cursorA, key);
    onB := store.ReadStateFor(clock.current, key);
    early := reader.Read(key);
    var reader2 := clock.Reader();
    late := reader2.Read(key);
  }

  /** A writer made before an advance has no effect after it. */
  method IgnoresStaleWriter(key: Key) returns (early: Option<Value>, late: Option<Value>)
    ensures early == Some(7) && late == Some(7)
  {
    var store := new SharedState();
    var clock := new Clock(store);
    var writer := clock.Writer();
    writer.Write(key, 7);
    var reader := clock.Reader();
    clock.Advance();
    writer.Write(key, 8);
    early := reader.Read(key);
    var reader2 := clock.Reader();
    late := reader2.Read(key);
  }

  /** Two readers on each of two cursors: duplicates count once. */
  method CountsUniqueReaders() returns (counts: seq<nat>, asWritten: seq<nat>)
    ensures counts == [0, 1, 1, 1, 2, 2]
    ensures asWritten == [0, 1, 1, 1, 2, 2]
  {
    var store := new SharedState();
    var clock := new Clock(store);
    var reader1A := clock.Reader();
    var reader1B := clock.Reader();
    clock.Advance();
    var reader2A := clock.Reader();
    var reader2B := clock.Reader();
    var h1A, h1B, h2A, h2B := OfReader(reader1A), OfReader(reader1B), OfReader(reader2A), OfReader(reader2B);
    counts := CountPairs(h1A, h1B, h2A, h2B);
    asWritten := CountPairsAsWritten(h1A, h1B, h2A, h2B);
  }

  /** The counts of the scenario above, for any two handles on one cursor
      and two on another. */
  method CountPairs(h1A: Handle, h1B: Handle, h2A: Handle, h2B: Handle) returns (counts: seq<nat>)
    requires h1A.BoundCursor() == h1B.BoundCursor()
    requires h2A.BoundCursor() == h2B.BoundCursor()
    requires h1A.BoundCursor() != h2A.BoundCursor()
    ensures counts == [0, 1, 1, 1, 2, 2]
  {
    PairCounts(h1A, h1B, h2A, h2B);
    var n0 := UniqueCount([]);
    var n1 := UniqueCount([h1A]);
    var n2 := UniqueCount([h1A, h1A, h1A]);
    var n3 := UniqueCount([h1A, h1B]);
    var n4 := UniqueCount([h1A, h1B, h2A]);
    var n5 := UniqueCount([h1A, h1B, h2A, h2B]);
    counts := [n0, n1, n2, n3, n4, n5];
  }

  /** The same counts from `uniqueCount` as written, which agrees with the
      corrected count when every handle is a reader or a writer. */
  method CountPairsAsWritten(h1A: Handle, h1B: Handle, h2A: Handle, h2B: Handle) returns (counts: seq<nat>)
    requires !h1A.Bare? && !h1B.Bare? && !h2A.Bare? && !h2B.Bare?
    requires h1A.BoundCursor() == h1B.BoundCursor()
    requires h2A.BoundCursor() == h2B.BoundCursor()
    requires h1A.BoundCursor() != h2A.BoundCursor()
    ensures counts == [0, 1, 1, 1, 2, 2]
  {
    PairCountsAsWritten(h1A, h1B, h2A, h2B);
    var n0 := UniqueCountAsWritten([]);
    var n1 := UniqueCountAsWritten([h1A]);
    var n2 := UniqueCountAsWritten([h1A, h1A, h1A]);
    var n3 := UniqueCountAsWritten([h1A, h1B]);
    var n4 := UniqueCountAsWritten([h1A, h1B, h2A]);
    var n5 := UniqueCountAsWritten([h1A, h1B, h2A, h2B]);
    counts := [n0, n1, n2, n3, n4, n5];
  }

  /** The discrepancy in `uniqueCount`: a cursor and a reader bound to it
      count as two as written, and as one once corrected. */
  method MixedCursorAndReader() returns (asWritten: nat, corrected: nat)
    ensures asWritten == 2 && corrected == 1
  {
    var store := new SharedState();
    var clock := new Clock(store);
    var reader := clock.Reader();
    var handles := [Bare(clock.current), OfReader(reader)];
    MixedHandlesCountedTwice(clock.current, reader);
    asWritten := UniqueCountAsWritten(handles);
    corrected := UniqueCount(handles);
  }

  /** After two advances the most recent of the three cursors is the current one. */
  method MostRecentAfterAdvances() returns (r: Result<Cursor>, none: Result<Cursor>)
    ensures r.Ok? && r.value.n == 2
    ensures none.InvalidArgument?
  {
    var store := new SharedState();
    var clock := new Clock(store);
    var c0 := clock.current;
    clock.Advance();
    var c1 := clock.current;
    clock.Advance();
    r := MostRecent([c1, clock.current, c0]);
    none := MostRecent([]);
  }

  /** One handle, once or three times, stands for exactly its own cursor. */
  lemma SingleCounts(h: Handle)
    ensures BoundCursors([h]) == {h.BoundCursor()}
    ensures BoundCursors([h, h, h]) == {h.BoundCursor()}
  {
    BoundCursorsSnoc([], h);
    BoundCursorsSnoc([h], h);
    BoundCursorsSnoc([h, h], h);
    assert [] + [h] == [h] && [h] + [h] == [h, h] && [h, h] + [h] == [h, h, h];
  }

  /** The distinct-cursor counts of the reader lists in the unique-count scenario. */
  lemma PairCounts(h1A: Handle, h1B: Handle, h2A: Handle, h2B: Handle)
    requires h1A.BoundCursor() == h1B.BoundCursor()
    requires h2A.BoundCursor() == h2B.BoundCursor()
    requires h1A.BoundCursor() != h2A.BoundCursor()
    ensures |BoundCursors([])| == 0
    ensures |BoundCursors([h1A])| == 1 && |BoundCursors([h1A, h1A, h1A])| == 1
    ensures |BoundCursors([h1A, h1B])| == 1
    ensures |BoundCursors([h1A, h1B, h2A])| == 2 && |BoundCursors([h1A, h1B, h2A, h2B])| == 2
  {
    SingleCounts(h1A);
    BoundCursorsSnoc([h1A], h1B);
    assert [h1A] + [h1B] == [h1A, h1B];
    BoundCursorsSnoc([h1A, h1B], h2A);
    assert [h1A, h1B] + [h2A] == [h1A, h1B, h2A];
    BoundCursorsSnoc([h1A, h1B, h2A], h2B);
    assert [h1A, h1B, h2A] + [h2B] == [h1A, h1B, h2A, h2B];
  }

  /** The same counts of distinct keys, for readers and writers, as `uniqueCount` computes them as written. */
  lemma PairCountsAsWritten(h1A: Handle, h1B: Handle, h2A: Handle, h2B: Handle)
    requires !h1A.Bare? && !h1B.Bare? && !h2A.Bare? && !h2B.Bare?
    requires h1A.BoundCursor() == h1B.BoundCursor()
    requires h2A.BoundCursor() == h2B.BoundCursor()
    requires h1A.BoundCursor() != h2A.BoundCursor()
    ensures |PrimitiveKeys([])| == 0
    ensures |PrimitiveKeys([h1A])| == 1 && |PrimitiveKeys([h1A, h1A, h1A])| == 1
    ensures |PrimitiveKeys([h1A, h1B])| == 1
    ensures |PrimitiveKeys([h1A, h1B, h2A])| == 2 && |PrimitiveKeys([h1A, h1B, h2A, h2B])| == 2
  {
    var a, b := ToPrimitive(h1A), ToPrimitive(h2A);
    assert ToPrimitive(h1B) == a && ToPrimitive(h2B) == b && a != b;
    SingleKeys(h1A);
    PrimitiveKeysSnoc([h1A], h1B);
    assert [h1A] + [h1B] == [h1A, h1B];
    PrimitiveKeysSnoc([h1A, h1B], h2A);
    assert [h1A, h1B] + [h2A] == [h1A, h1B, h2A];
    PrimitiveKeysSnoc([h1A, h1B, h2A], h2B);
    assert [h1A, h1B, h2A] + [h2B] == [h1A, h1B, h2A, h2B];
  }

  /** One handle, once or three times, gives exactly its own key. */
  lemma SingleKeys(h: Handle)
    ensures PrimitiveKeys([h]) == {ToPrimitive(h)}
    ensures PrimitiveKeys([h, h, h]) == {ToPrimitive(h)}
  {
    PrimitiveKeysSnoc([], h);
    PrimitiveKeysSnoc([h], h);
    PrimitiveKeysSnoc([h, h], h);
    assert [] + [h] == [h] && [h] + [h] == [h, h] && [h, h] + [h] == [h, h, h];
  }
}

=== FILE: clocks.dfy ===
/**
 * The logical clock of src/index.ts.
 *
 * A process-wide store keeps one keyed map per cursor. A clock has a counter
 * and a current cursor; advancing it makes a fresh cursor numbered one higher,
 * copies the current cursor's map to it, and switches to it. Readers and
 * writers are bound to the cursor that was current when they were made; a
 * writer's writes are dropped once its clock has moved on.
 */
module Clocks {
  import opened Options

  /** The keys of a cursor's state (symbols in the source). */
  type Key = nat
  /** The values stored under a key: opaque payloads. */
  type Value = int
  /** One cursor's keyed state. */
  type State = map<Key, Value>

  /** A cursor: one logical instant. `makeCursor` allocates a fresh object on
      every call, so cursors are told apart by identity; `n` is the number it
      was made with. */
  class Cursor {
    const n: nat

    constructor (n: nat)
      ensures this.n == n
    {
      this.n := n;
    }
  }

  /** `getCursorNumber`: the cursor's number, except that `0 || -1` turns
      cursor 0 into -1. */
  function CursorNumber(c: Cursor): (r: int)
    ensures r != 0
    ensures r > 0 ==> r == c.n
  {
    if c.n == 0 then -1 else c.n
  }

  /** Turning 0 into -1 keeps the order of the cursors' own numbers. */
  lemma CursorNumberKeepsOrder(a: Cursor, b: Cursor)
    ensures a.n < b.n <==> CursorNumber(a) < CursorNumber(b)
    ensures a.n == b.n <==> CursorNumber(a) == CursorNumber(b)
  {
  }

  /** A cursor's map in `maps`, or the empty map when it has none. */
  function StateOf(maps: map<Cursor, State>, c: Cursor): State
  {
    if c in maps then maps[c] else map[]
  }

  /** `sharedState`: the store of every cursor's map. */
  class SharedState {
    var maps: map<Cursor, State>

    constructor ()
      ensures maps == map[]
    {
      maps := map[];
    }

    /** `readStateFor(c)(k)`: undefined when the cursor has no map or the map
        has no such key. */
    function ReadStateFor(c: Cursor, k: Key): (r: Option<Value>)
      reads this
      ensures r.None? <==> k !in StateOf(maps, c)
      ensures r.Some? ==> r.value == StateOf(maps, c)[k]
    {
      if c in maps && k in maps[c] then Some(maps[c][k]) else None
    }

    /** `setStateFor(c)(k, v)`: creates the cursor's map on first write. Only
        the entry `(c, k)` changes. */
    method SetStateFor(c: Cursor, k: Key, v: Value)
      modifies this
      ensures maps == old(maps)[c := StateOf(old(maps), c)[k := v]]
      ensures ReadStateFor(c, k) == Some(v)
      ensures forall k' :: k' != k ==> ReadStateFor(c, k') == old(ReadStateFor(c, k'))
      ensures forall c' :: c' != c ==> StateOf(maps, c') == StateOf(old(maps), c')
    {
      if c !in maps {
        maps := maps[c := map[k := v]];
      } else {
        var state: State := maps[c];
        maps := maps[c := state[k := v]];
      }
    }

    /** `copyStateFromTo(a, b)`: `b`'s map becomes a copy of `a`'s (empty if
        `a` has none); no other cursor's map changes. */
    method CopyStateFromTo(a: Cursor, b: Cursor)
      modifies this
      ensures maps == old(maps)[b := StateOf(old(maps), a)]
      ensures forall k :: ReadStateFor(b, k) == old(ReadStateFor(a, k))
    {
      var copied := if a in maps then maps[a] else map[];
      maps := maps[b := copied];
    }
  }

  /** A reader: `readStateFor` of the cursor current when it was made. It
      reads the store at call time, so it sees later writes to its cursor. */
  datatype BoundReader = BoundReader(store: SharedState, cursor: Cursor)
  {
    function Read(k: Key): (r: Option<Value>)
      reads store
      ensures r.None? <==> k !in StateOf(store.maps, cursor)
      ensures r.Some? ==> r.value == StateOf(store.maps, cursor)[k]
    {
      store.ReadStateFor(cursor, k)
    }
  }

  /** A writer: bound to its clock and to the cursor current when it was made. */
  datatype BoundWriter = BoundWriter(clock: Clock, cursor: Cursor)
  {
    /** Calling the writer: the write lands on the bound cursor while that is
        still the clock's current cursor, and is silently dropped afterwards. */
    method Write(k: Key, v: Value)
      modifies clock.store
      ensures cursor == clock.current ==>
                clock.store.maps == old(clock.store.maps)[cursor := StateOf(old(clock.store.maps), cursor)[k := v]]
      ensures cursor != clock.current ==> clock.store.maps == old(clock.store.maps)
    {
      if cursor != clock.current {
        return;
      }
      clock.store.SetStateFor(clock.current, k, v);
    }
  }

  /** A clock made by `makeClock`. */
  class Clock {
    /** `vectorClock`: how many times the clock has advanced. */
    var time: nat
    /** `currentCursor`. */
    var current: Cursor
    /** The store this clock reads and writes: the module-level `sharedState`,
        which callers pass, the same one, to every clock. */
    const store: SharedState

    ghost predicate Valid()
      reads this
    {
      current.n == time
    }

    /** `makeClock()`: time 0, on a fresh cursor that has no state yet. */
    constructor (store: SharedState)
      ensures Valid() && time == 0 && this.store == store
      ensures fresh(current) && current !in store.maps
    {
      this.store := store;
      time := 0;
      current := new Cursor(0);
    }

    /** `reader()`: bound to the current cursor for good. */
    method Reader() returns (r: BoundReader)
      ensures r.store == store && r.cursor == current
    {
      r := BoundReader(store, current);
    }

    /** `writer()`: bound to this clock and its current cursor. */
    method Writer() returns (w: BoundWriter)
      ensures w.clock == this && w.cursor == current
    {
      w := BoundWriter(this, current);
    }

    /** `advance()`: a fresh cursor numbered one higher, holding a copy of
        the old cursor's map, becomes current; every other map is untouched. */
    method Advance()
      requires Valid()
      modifies this, store
      ensures Valid() && time == old(time) + 1
      ensures fresh(current) && current != old(current)
      ensures store.maps == old(store.maps)[current := StateOf(old(store.maps), old(current))]
    {
      time := time + 1;
      var next := new Cursor(time);
      store.CopyStateFromTo(current, next);
      current := next;
    }
  }

  // ---------------------------------------------------------------------------
  // uniqueCount and mostRecent (members of the clock object in the source,
  // but they read none of its state)

  /** What `uniqueCount` accepts: a cursor, or a reader or writer function. */
  datatype Handle = Bare(c: Cursor) | OfReader(r: BoundReader) | OfWriter(w: BoundWriter)
  {
    /** The cursor the handle stands for. */
    function BoundCursor(): Cursor
    {
      match this
      case Bare(c) => c
      case OfReader(r) => r.cursor
      case OfWriter(w) => w.cursor
    }
  }

  /** The distinct cursors the handles stand for. */
  function BoundCursors(hs: seq<Handle>): (s: set<Cursor>)
    ensures s == set i | 0 <= i < |hs| :: hs[i].BoundCursor()
    ensures |s| <= |hs|
    decreases |hs|
  {
    if hs == [] then {}
    else
      var front := hs[..|hs| - 1];
      assert forall i :: 0 <= i < |front| ==> front[i] == hs[i];
      var s := BoundCursors(front) + {hs[|hs| - 1].BoundCursor()};
      assert s == set i | 0 <= i < |hs| :: hs[i].BoundCursor() by {
        assert hs[|hs| - 1].BoundCursor() in set i | 0 <= i < |hs| :: hs[i].BoundCursor();
      }
      s
  }

  /** One more handle adds one to the count exactly when its cursor is new. */
  lemma BoundCursorsSnoc(hs: seq<Handle>, h: Handle)
    ensures BoundCursors(hs + [h]) == BoundCursors(hs) + {h.BoundCursor()}
    ensures |BoundCursors(hs + [h])| == |BoundCursors(hs)| + (if h.BoundCursor() in BoundCursors(hs) then 0 else 1)
  {
    assert (hs + [h])[..|hs|] == hs;
    if h.BoundCursor() in BoundCursors(hs) {
      assert BoundCursors(hs) + {h.BoundCursor()} == BoundCursors(hs);
    }
  }

  /** `uniqueCount(cursors)`: the number of distinct cursors among the handles. */
  method UniqueCount(handles: seq<Handle>) returns (count: nat)
    ensures count == |BoundCursors(handles)|
  {
    var unique: set<Cursor> := {};
    var i := 0;
    while i < |handles|
      invariant 0 <= i <= |handles|
      invariant unique == BoundCursors(handles[..i])
    {
      assert handles[..i + 1][..i] == handles[..i];
      unique := unique + {handles[i].BoundCursor()};
      i := i + 1;
    }
    assert handles[..i] == handles;
    count := |unique|;
  }

  /** What `mostRecent` returns: the cursor, or the error it throws. */
  datatype Result<T> = Ok(value: T) | InvalidArgument(message: string)

  /** `cs[i]` has the highest cursor number in `cs`, and no earlier element has it. */
  ghost predicate EarliestLatest(cs: seq<Cursor>, i: int)
  {
    && 0 <= i < |cs|
    && (forall j :: 0 <= j < |cs| ==> CursorNumber(cs[j]) <= CursorNumber(cs[i]))
    && (forall j :: 0 <= j < i ==> CursorNumber(cs[j]) < CursorNumber(cs[i]))
  }

  /** `mostRecent(cursors)`: throws on no cursors; otherwise the reduce with a
      strict `>` keeps the first cursor with the highest number. */
  method MostRecent(cursors: seq<Cursor>) returns (r: Result<Cursor>)
    ensures r.InvalidArgument? <==> cursors == []
    ensures r.Ok? ==> exists i :: EarliestLatest(cursors, i) && cursors[i] == r.value
    ensures r.Ok? ==> forall c :: c in cursors ==> c.n <= r.value.n
  {
    if |cursors| == 0 {
      return InvalidArgument("Must pass non-empty iterable to mostRecent()");
    }
    var candidate := 0;
    var i := 1;
    while i < |cursors|
      invariant 1 <= i <= |cursors| && 0 <= candidate < i
      invariant forall j :: 0 <= j < i ==> CursorNumber(cursors[j]) <= CursorNumber(cursors[candidate])
      invariant forall j :: 0 <= j < candidate ==> CursorNumber(cursors[j]) < CursorNumber(cursors[candidate])
    {
      if CursorNumber(cursors[i]) > CursorNumber(cursors[candidate]) {
        candidate := i;
      }
      i := i + 1;
    }
    r := Ok(cursors[candidate]);
    assert EarliestLatest(cursors, candidate);
    forall c | c in cursors
      ensures c.n <= r.value.n
    {
      var j :| 0 <= j < |cursors| && cursors[j] == c;
      CursorNumberKeepsOrder(c, r.value);
    }
  }

  // ---------------------------------------------------------------------------
  // uniqueCount as written: handles are keyed by `s[Symbol.toPrimitive]()`

  /** What `h[Symbol.toPrimitive]()` returns: for a bare cursor (a Symbol
      wrapper object) the primitive symbol inside it; for a reader or writer
      the cursor object itself. */
  datatype Primitive = SymbolOf(c: Cursor) | CursorObject(c: Cursor)

  function ToPrimitive(h: Handle): (p: Primitive)
    ensures p.c == h.BoundCursor()
    ensures p.SymbolOf? <==> h.Bare?
  {
    match h
    case Bare(c) => SymbolOf(c)
    case OfReader(r) => CursorObject(r.cursor)
    case OfWriter(w) => CursorObject(w.cursor)
  }

  /** The distinct keys the source's `Set` collects. */
  function PrimitiveKeys(hs: seq<Handle>): (s: set<Primitive>)
    ensures s == set i | 0 <= i < |hs| :: ToPrimitive(hs[i])
    ensures |s| <= |hs|
    decreases |hs|
  {
    if hs == [] then {}
    else
      var front := hs[..|hs| - 1];
      assert forall i :: 0 <= i < |front| ==> front[i] == hs[i];
      var s := PrimitiveKeys(front) + {ToPrimitive(hs[|hs| - 1])};
      assert s == set i | 0 <= i < |hs| :: ToPrimitive(hs[i]) by {
        assert ToPrimitive(hs[|hs| - 1]) in set i | 0 <= i < |hs| :: ToPrimitive(hs[i]);
      }
      s
  }

  /** One more handle adds exactly its key. */
  lemma PrimitiveKeysSnoc(hs: seq<Handle>, h: Handle)
    ensures PrimitiveKeys(hs + [h]) == PrimitiveKeys(hs) + {ToPrimitive(h)}
  {
    assert (hs + [h])[..|hs|] == hs;
  }

  /** `uniqueCount` exactly as the source computes it. */
  method UniqueCountAsWritten(handles: seq<Handle>) returns (count: nat)
    ensures count == |PrimitiveKeys(handles)|
  {
    var unique: set<Primitive> := {};
    var i := 0;
    while i < |handles|
      invariant 0 <= i <= |handles|
      invariant unique == PrimitiveKeys(handles[..i])
    {
      assert handles[..i + 1][..i] == handles[..i];
      unique := unique + {ToPrimitive(handles[i])};
      i := i + 1;
    }
    assert handles[..i] == handles;
    count := |unique|;
  }

  /** A cursor and a reader bound to it are one cursor, but the source's keys
      tell them apart and count two. */
  lemma MixedHandlesCountedTwice(c: Cursor, r: BoundReader)
    requires r.cursor == c
    ensures |BoundCursors([Bare(c), OfReader(r)])| == 1
    ensures |PrimitiveKeys([Bare(c), OfReader(r)])| == 2
  {
    var hs := [Bare(c), OfReader(r)];
    assert hs[..1] == [Bare(c)] && hs[..1][..0] == [];
    assert BoundCursors(hs) == {c};
    assert PrimitiveKeys(hs[..1]) == {SymbolOf(c)};
    assert ToPrimitive(hs[1]) == CursorObject(c);
    assert PrimitiveKeys(hs) == {SymbolOf(c), CursorObject(c)};
  }

  /** The keys readers and writers of the cursors `cs` give. */
  function ObjectKeys(cs: set<Cursor>): set<Primitive>
  {
    set c | c in cs :: CursorObject(c)
  }

  /** Different cursors give different keys, so there are as many keys as cursors. */
  lemma {:induction false} ObjectKeysCount(cs: set<Cursor>)
    ensures |ObjectKeys(cs)| == |cs|
    decreases cs
  {
    if cs != {} {
      var x :| x in cs;
      ObjectKeysCount(cs - {x});
      assert ObjectKeys(cs) == ObjectKeys(cs - {x}) + {CursorObject(x)};
    }
  }

  /** Adding one cursor adds exactly its key. */
  lemma ObjectKeysAdd(cs: set<Cursor>, x: Cursor)
    ensures ObjectKeys(cs + {x}) == ObjectKeys(cs) + {CursorObject(x)}
  {
  }

  /** When every handle is a reader or a writer (as in the source's own
      usage), the keys as written correspond one to one with the cursors, so
      both counts agree. */
  lemma {:induction false} AsWrittenAgreesOnFunctions(hs: seq<Handle>)
    requires forall i :: 0 <= i < |hs| ==> !hs[i].Bare?
    ensures PrimitiveKeys(hs) == ObjectKeys(BoundCursors(hs))
    ensures |PrimitiveKeys(hs)| == |BoundCursors(hs)|
    decreases |hs|
  {
    if hs != [] {
      var front, last := hs[..|hs| - 1], hs[|hs| - 1];
      assert forall i :: 0 <= i < |front| ==> front[i] == hs[i];
      AsWrittenAgreesOnFunctions(front);
      assert ToPrimitive(last) == CursorObject(last.BoundCursor());
      ObjectKeysAdd(BoundCursors(front), last.BoundCursor());
    }
    ObjectKeysCount(BoundCursors(hs));
  }

}

=== FILE: options.dfy ===
/** Optional values: JavaScript's `undefined` where a lookup can come back empty. */
module Options {

  datatype Option<+T> = None | Some(value: T)
}

=== FILE: records.dfy ===
/**
 * The fork/delta record model of src/index.ts.
 *
 * A record maps variable identities to field definitions. A declared record
 * holds its definitions directly; a forked record holds only its change-set
 * and delegates every other variable to its parent. A definition is either a
 * frozen literal or a derivation, a getter that is evaluated on every read
 * with `this` bound to the record being READ — not the record that defines
 * it. That is why `this[parent]` inside an inherited derivation names the
 * reader's parent.
 */
module Records {
  import opened Options

  /** The identity of a variable: the model's stand-in for the unique symbol
      that `variable` allocates. A smaller identity was declared earlier. */
  type VarId = nat

  /** Field values. Numbers and the payloads of sequences are opaque integers. */
  datatype Val = Undefined | NaN | Num(n: int) | Items(xs: seq<Val>)

  /** The TypeErrors a read can raise. */
  datatype Failure =
    | NoParent     // `this[parent]` is undefined on a declared record, so `this[parent][prop]` throws
    | NotIterable  // `yield*` or `for ... of` over a value that is not iterable throws
    | ReadsLater   // a calculated field reads a variable declared after its own (outside this model)

  /** What reading a field yields: a value, or the error it throws. */
  datatype Outcome = Ok(value: Val) | Thrown(failure: Failure)

  /** What a derivation helper does with the parent's value of its variable. */
  datatype ParentOp =
    | Change(f: Val -> Val)   // changing(prop, transform)
    | Add(amount: int)        // adding(prop, amount)
    | Prepend(x: Val)         // prepending(prop, value)
    | Append(x: Val)          // appending(prop, value)
    | MapEach(g: Val -> Val)  // mapping(prop, transform)

  /** A field definition: a frozen literal, a getter computed from another
      field of `this`, or a getter computed from `this[parent][prop]`. */
  datatype Def =
    | Lit(v: Val)
    | Calc(w: VarId, f: Val -> Val)
    | Derive(prop: VarId, op: ParentOp)

  /** A partial record: the own fields a `declare` or a `fork` defines. */
  type Partial = map<VarId, Def>

  /** A frozen record: a root built by `declare`, or a fork whose parent slot is its source. */
  datatype Rec = Declared(fields: Partial) | Forked(parent: Rec, fields: Partial)

  // ---------------------------------------------------------------------------
  // Reading a field

  /** The change-sets on the prototype chain of `r`: its own fields first,
      then its parent's, up to the root. */
  function Chain(r: Rec): (cs: seq<Partial>)
    ensures |cs| >= 1 && cs[0] == r.fields
  {
    match r
    case Declared(fields) => [fields]
    case Forked(p, fields) => [fields] + Chain(p)
  }

  /** `cs[i]` defines `v`, and no change-set before it does. */
  ghost predicate Nearest(cs: seq<Partial>, v: VarId, i: int)
  {
    0 <= i < |cs| && v in cs[i] && forall j :: 0 <= j < i ==> v !in cs[j]
  }

  /** The nearest definition of `v` on `r` or its ancestors (prototype delegation). */
  function Lookup(r: Rec, v: VarId): Option<Def>
  {
    if v in r.fields then Some(r.fields[v])
    else match r
      case Declared(_) => None
      case Forked(p, _) => Lookup(p, v)
  }

  /** Prototype delegation finds the definition in the first change-set on
      the chain that defines the variable, and finds none when no change-set
      on the chain defines it. */
  lemma {:induction false} LookupNearest(r: Rec, v: VarId)
    ensures Lookup(r, v).None? <==> forall i :: 0 <= i < |Chain(r)| ==> v !in Chain(r)[i]
    ensures Lookup(r, v).Some? ==> exists i :: Nearest(Chain(r), v, i) && Lookup(r, v).value == Chain(r)[i][v]
  {
    if v in r.fields {
      assert v in Chain(r)[0] && Nearest(Chain(r), v, 0);
    } else if r.Forked? {
      var p := r.parent;
      LookupNearest(p, v);
      assert forall i :: 0 <= i < |Chain(p)| ==> Chain(r)[i + 1] == Chain(p)[i];
      if Lookup(p, v).None? {
        forall i | 0 <= i < |Chain(r)| ensures v !in Chain(r)[i] {
          if i > 0 { assert Chain(r)[i] == Chain(p)[i - 1]; }
        }
      } else {
        var i :| Nearest(Chain(p), v, i) && Lookup(p, v).value == Chain(p)[i][v];
        assert Nearest(Chain(r), v, i + 1);
      }
    }
  }

  /** Reading a variable that no record on the chain defines gives undefined;
      a frozen literal reads as itself, however far up the chain it sits. */
  lemma GetReadsChain(self: Rec, v: VarId)
    ensures (forall i :: 0 <= i < |Chain(self)| ==> v !in Chain(self)[i]) ==> Get(self, v) == Ok(Undefined)
    ensures forall i :: Nearest(Chain(self), v, i) && Chain(self)[i][v].Lit? ==>
              Get(self, v) == Ok(Chain(self)[i][v].v)
  {
    LookupNearest(self, v);
    forall i | Nearest(Chain(self), v, i) && Chain(self)[i][v].Lit?
      ensures Get(self, v) == Ok(Chain(self)[i][v].v)
    {
      assert v in Chain(self)[i];
      var j :| Nearest(Chain(self), v, j) && Lookup(self, v).value == Chain(self)[j][v];
      assert v in Chain(self)[j];
      assert !(i < j) && !(j < i);
    }
  }

  /** `self[v]`: find the nearest definition and evaluate it with `this` = self. */
  function Get(self: Rec, v: VarId): (r: Outcome)
    decreases self, v, 1
  {
    match Lookup(self, v)
    case None => Ok(Undefined)
    case Some(d) => Eval(self, v, d)
  }

  /** Evaluate definition `d`, found for variable `v`, with `this` bound to `self`. */
  function Eval(self: Rec, v: VarId, d: Def): Outcome
    decreases self, v, 0
  {
    match d
    case Lit(x) => Ok(x)
    case Calc(w, f) =>
      if w < v then Apply(Change(f), Get(self, w)) else Thrown(ReadsLater)
    case Derive(p, op) =>
      match self
      case Declared(_) => Thrown(NoParent)
      case Forked(up, _) => Apply(op, Get(up, p))
  }

  /** Whether `op` is one of the generator helpers, which iterate the value they read. */
  predicate Iterates(op: ParentOp)
  {
    op.Prepend? || op.Append? || op.MapEach?
  }

  /** The value a derivation helper computes from the value it read. */
  function Apply(op: ParentOp, current: Outcome): (r: Outcome)
    ensures current.Thrown? ==> r == current
    ensures current.Ok? && !Iterates(op) ==> r.Ok?
    ensures current.Ok? && Iterates(op) ==> (r.Ok? <==> current.value.Items?)
    ensures current.Ok? && r.Thrown? ==> r.failure == NotIterable
    ensures current.Ok? && current.value.Items? && (op.Prepend? || op.Append?) ==>
              && r.Ok? && r.value.Items?
              && |r.value.xs| == |current.value.xs| + 1
    ensures current.Ok? && current.value.Items? && op.Append? ==>
              r.value.xs[..|current.value.xs|] == current.value.xs && r.value.xs[|current.value.xs|] == op.x
    ensures current.Ok? && current.value.Items? && op.Prepend? ==>
              r.value.xs[0] == op.x && r.value.xs[1..] == current.value.xs
  {
    match current
    case Thrown(e) => Thrown(e)
    case Ok(x) =>
      match op
      case Change(f) => Ok(f(x))
      case Add(n) => if x.Num? then Ok(Num(x.n + n)) else Ok(NaN)
      case Prepend(y) => if x.Items? then Ok(Items([y] + x.xs)) else Thrown(NotIterable)
      case Append(y) => if x.Items? then Ok(Items(x.xs + [y])) else Thrown(NotIterable)
      case MapEach(g) => if x.Items? then Ok(Items(MapItems(g, x.xs))) else Thrown(NotIterable)
  }

  /** What `mapping` yields when its generator is drained: `g` of each element, in order. */
  function MapItems(g: Val -> Val, xs: seq<Val>): (ys: seq<Val>)
    ensures |ys| == |xs|
    ensures forall i :: 0 <= i < |xs| ==> ys[i] == g(xs[i])
  {
    if xs == [] then [] else [g(xs[0])] + MapItems(g, xs[1..])
  }

  // ---------------------------------------------------------------------------
  // Building partials

  /** What the function returned by `variable` builds: a partial that defines
      `v`, as `d`, and nothing else. */
  function Bind(v: VarId, d: Def): (p: Partial)
    ensures p.Keys == {v} && p[v] == d
  {
    map[v := d]
  }

  function Changing(v: VarId, f: Val -> Val): Partial { Bind(v, Derive(v, Change(f))) }

  function Adding(v: VarId, amount: int): Partial { Bind(v, Derive(v, Add(amount))) }

  function Prepending(v: VarId, x: Val): Partial { Bind(v, Derive(v, Prepend(x))) }

  function Appending(v: VarId, x: Val): Partial { Bind(v, Derive(v, Append(x))) }

  function Mapping(v: VarId, g: Val -> Val): Partial { Bind(v, Derive(v, MapEach(g))) }

  /** Whether some partial of `ps` defines `v`. */
  ghost predicate SomeDefines(ps: seq<Partial>, v: VarId)
  {
    exists i :: 0 <= i < |ps| && v in ps[i]
  }

  /** `compound(...ps)`: merge left to right, so a later partial wins on a shared variable. */
  function Compound(ps: seq<Partial>): (r: Partial)
    ensures forall v :: v in r <==> SomeDefines(ps, v)
    decreases |ps|
  {
    if ps == [] then map[]
    else
      var front, last := ps[..|ps| - 1], ps[|ps| - 1];
      var r := Compound(front) + last;
      assert forall v :: SomeDefines(ps, v) ==> SomeDefines(front, v) || v in last by {
        forall v | SomeDefines(ps, v) ensures SomeDefines(front, v) || v in last {
          var i :| 0 <= i < |ps| && v in ps[i];
          if i < |front| { assert front[i] == ps[i]; }
        }
      }
      assert forall v :: SomeDefines(front, v) ==> SomeDefines(ps, v) by {
        forall v | SomeDefines(front, v) ensures SomeDefines(ps, v) {
          var i :| 0 <= i < |front| && v in front[i];
          assert ps[i] == front[i];
        }
      }
      assert forall v :: v in last ==> SomeDefines(ps, v) by {
        forall v | v in last ensures SomeDefines(ps, v) { assert ps[|ps| - 1] == last; }
      }
      r
  }

  /** On a variable several partials define, `compound` keeps the last one's definition. */
  lemma {:induction false} CompoundLastWins(ps: seq<Partial>, i: nat, v: VarId)
    requires i < |ps| && v in ps[i]
    requires forall j :: i < j < |ps| ==> v !in ps[j]
    ensures v in Compound(ps) && Compound(ps)[v] == ps[i][v]
    decreases |ps|
  {
    var front, last := ps[..|ps| - 1], ps[|ps| - 1];
    if i < |ps| - 1 {
      assert v !in last;
      assert front[i] == ps[i];
      CompoundLastWins(front, i, v);
    }
  }

  // ---------------------------------------------------------------------------
  // declare and fork

  /** Reading a declared record: literals read as themselves, a variable it
      does not define reads as undefined, and a parent-relative derivation
      throws because a root has no parent slot. */
  lemma DeclareReads(properties: Partial, v: VarId)
    ensures v !in properties ==> Get(Declared(properties), v) == Ok(Undefined)
    ensures v in properties && properties[v].Lit? ==> Get(Declared(properties), v) == Ok(properties[v].v)
    ensures v in properties && properties[v].Derive? ==> Get(Declared(properties), v) == Thrown(NoParent)
  {
  }

  /** Reading a fork: a variable in the change-set is defined by the
      change-set; any other variable delegates to the source's nearest
      definition, which is then evaluated with the FORK as `this`. A literal
      found that way, or no definition at all, reads exactly as on the source. */
  lemma ForkReads(source: Rec, changes: Partial, v: VarId)
    ensures Forked(source, changes).parent == source
    ensures v in changes ==> Lookup(Forked(source, changes), v) == Some(changes[v])
    ensures v in changes && changes[v].Lit? ==> Get(Forked(source, changes), v) == Ok(changes[v].v)
    ensures v !in changes ==> Lookup(Forked(source, changes), v) == Lookup(source, v)
    ensures v !in changes && Lookup(source, v).Some? ==>
              Get(Forked(source, changes), v) == Eval(Forked(source, changes), v, Lookup(source, v).value)
    ensures v !in changes && (Lookup(source, v).None? || Lookup(source, v).value.Lit?) ==>
              Get(Forked(source, changes), v) == Get(source, v)
  {
  }

  /** An inherited parent-relative derivation re-applies one level further
      down: read on a fork that does not override it, it starts from the
      SOURCE's value (the reader's parent), not from the value one level above
      the record that defined it. */
  lemma InheritedDerivationReapplies(source: Rec, changes: Partial, v: VarId, p: VarId, op: ParentOp)
    requires v !in changes && Lookup(source, v) == Some(Derive(p, op))
    ensures Get(Forked(source, changes), v) == Apply(op, Get(source, p))
  {
  }

  /** A calculated field is computed from the reader's fields: inherited by a
      fork that overrides its input with a literal, it recomputes from that literal. */
  lemma CalcReadsReader(source: Rec, changes: Partial, v: VarId, w: VarId, f: Val -> Val)
    requires v !in changes && Lookup(source, v) == Some(Calc(w, f)) && w < v
    ensures Get(Forked(source, changes), v) == Apply(Change(f), Get(Forked(source, changes), w))
    ensures w in changes && changes[w].Lit? ==> Get(Forked(source, changes), v) == Ok(f(changes[w].v))
  {
  }

  // ---------------------------------------------------------------------------
  // The derivation helpers

  /** `changing(v, f)`: forked onto a source, `v` reads as `f` of the
      source's value, and an error reading the source passes through; on a
      root, which has no parent slot, it throws. */
  lemma ChangingReads(source: Rec, v: VarId, f: Val -> Val)
    ensures Get(Declared(Changing(v, f)), v) == Thrown(NoParent)
    ensures Get(source, v).Ok? ==> Get(Forked(source, Changing(v, f)), v) == Ok(f(Get(source, v).value))
    ensures Get(source, v).Thrown? ==> Get(Forked(source, Changing(v, f)), v) == Get(source, v)
  {
  }

  /** `adding(v, n)`: forked onto a source, `v` reads as the source's number
      plus `n`, or NaN when the source's value is undefined; an error passes
      through; on a root it throws. */
  lemma AddingReads(source: Rec, v: VarId, n: int)
    ensures Get(Declared(Adding(v, n)), v) == Thrown(NoParent)
    ensures Get(source, v).Ok? && Get(source, v).value.Num? ==>
              Get(Forked(source, Adding(v, n)), v) == Ok(Num(Get(source, v).value.n + n))
    ensures Get(source, v) == Ok(Undefined) ==> Get(Forked(source, Adding(v, n)), v) == Ok(NaN)
    ensures Get(source, v).Thrown? ==> Get(Forked(source, Adding(v, n)), v) == Get(source, v)
  {
  }

  /** `prepending(v, x)`: forked onto a source, `v` reads as `x` followed by
      the source's sequence; a value that is not iterable throws, and so does
      a root. */
  lemma PrependingReads(source: Rec, v: VarId, x: Val)
    ensures Get(Declared(Prepending(v, x)), v) == Thrown(NoParent)
    ensures Get(source, v).Ok? && Get(source, v).value.Items? ==>
              Get(Forked(source, Prepending(v, x)), v) == Ok(Items([x] + Get(source, v).value.xs))
    ensures Get(source, v).Ok? && !Get(source, v).value.Items? ==>
              Get(Forked(source, Prepending(v, x)), v) == Thrown(NotIterable)
    ensures Get(source, v).Thrown? ==> Get(Forked(source, Prepending(v, x)), v) == Get(source, v)
  {
  }

  /** `appending(v, x)`: forked onto a source, `v` reads as the source's
      sequence followed by `x`; a value that is not iterable throws, and so
      does a root. */
  lemma AppendingReads(source: Rec, v: VarId, x: Val)
    ensures Get(Declared(Appending(v, x)), v) == Thrown(NoParent)
    ensures Get(source, v).Ok? && Get(source, v).value.Items? ==>
              Get(Forked(source, Appending(v, x)), v) == Ok(Items(Get(source, v).value.xs + [x]))
    ensures Get(source, v).Ok? && !Get(source, v).value.Items? ==>
              Get(Forked(source, Appending(v, x)), v) == Thrown(NotIterable)
    ensures Get(source, v).Thrown? ==> Get(Forked(source, Appending(v, x)), v) == Get(source, v)
  {
  }

  /** `mapping(v, f)`: forked onto a source, `v` reads as a sequence of the
      source's length whose i-th element is `f` of the source's i-th; a value
      that is not iterable throws, and so does a root. */
  lemma MappingReads(source: Rec, v: VarId, f: Val -> Val)
    ensures Get(Declared(Mapping(v, f)), v) == Thrown(NoParent)
    ensures Get(source, v).Ok? && Get(source, v).value.Items? ==>
              var r := Get(Forked(source, Mapping(v, f)), v);
              var ys := Get(source, v).value.xs;
              r.Ok? && r.value.Items? && |r.value.xs| == |ys| && forall i :: 0 <= i < |ys| ==> r.value.xs[i] == f(ys[i])
    ensures Get(source, v).Ok? && !Get(source, v).value.Items? ==>
              Get(Forked(source, Mapping(v, f)), v) == Thrown(NotIterable)
    ensures Get(source, v).Thrown? ==> Get(Forked(source, Mapping(v, f)), v) == Get(source, v)
  {
  }

  /** `k` successive forks that each add `n`. */
  function AddingChain(base: Rec, v: VarId, n: int, k: nat): Rec
  {
    if k == 0 then base else Forked(AddingChain(base, v, n, k - 1), Adding(v, n))
  }

  /** Forking `adding(v, n)` `k` times reads as one fork adding `k * n`. */
  lemma {:induction false} AddingComposes(base: Rec, v: VarId, n: int, k: nat)
    requires k >= 1
    ensures Get(AddingChain(base, v, n, k), v) == Apply(Add(k * n), Get(base, v))
    ensures Get(AddingChain(base, v, n, k), v) == Get(Forked(base, Adding(v, k * n)), v)
  {
    if k > 1 {
      AddingComposes(base, v, n, k - 1);
      assert (k - 1) * n + n == k * n;
    }
  }

  /** Successive forks appending each of `xs`, in order. */
  function AppendingChain(base: Rec, v: VarId, xs: seq<Val>): Rec
    decreases |xs|
  {
    if xs == [] then base
    else Forked(AppendingChain(base, v, xs[..|xs| - 1]), Appending(v, xs[|xs| - 1]))
  }

  /** A chain of `appending` forks reads as the base sequence followed by
      every appended value, each exactly once, in fork order. */
  lemma {:induction false} AppendingAccumulates(base: Rec, v: VarId, ys: seq<Val>, xs: seq<Val>)
    requires Get(base, v) == Ok(Items(ys))
    ensures Get(AppendingChain(base, v, xs), v) == Ok(Items(ys + xs))
    decreases |xs|
  {
    if xs != [] {
      var front := xs[..|xs| - 1];
      AppendingAccumulates(base, v, ys, front);
      var last := xs[|xs| - 1];
      var r := Forked(AppendingChain(base, v, front), Appending(v, last));
      assert AppendingChain(base, v, xs) == r;
      assert Lookup(r, v) == Some(Derive(v, Append(last)));
      assert Get(r, v) == Apply(Append(last), Get(AppendingChain(base, v, front), v));
      assert ys + front + [xs[|xs| - 1]] == ys + xs;
    } else {
      assert ys + xs == ys;
    }
  }

  // ---------------------------------------------------------------------------
  // The scenarios of src/index.test.ts, with Counter = 0, DoubleCounter = 1 and Todos = 2

  /** The getter `this[Counter] * 2`. */
  function Doubled(x: Val): Val
  {
    if x.Num? then Num(x.n * 2) else NaN
  }

  /** A calculated field declared on the root recomputes from a fork's
      overridden Counter: 14 on the root, 22 on the fork. */
  lemma DoubleCounterRecomputes()
    ensures var c1 := Declared(map[0 := Lit(Num(7)), 1 := Calc(0, Doubled)]);
            var c2 := Forked(c1, map[0 := Lit(Num(11))]);
            && Get(c1, 1) == Ok(Num(14))
            && Get(c2, 0) == Ok(Num(11))
            && Get(c2, 1) == Ok(Num(22))
  {
    var c1 := Declared(map[0 := Lit(Num(7)), 1 := Calc(0, Doubled)]);
    var c2 := Forked(c1, map[0 := Lit(Num(11))]);
    CalcReadsReader(c1, map[0 := Lit(Num(11))], 1, 0, Doubled);
    assert Get(c1, 1) == Apply(Change(Doubled), Get(c1, 0));
  }

  /** Counter 3, then `adding(Counter, 1)`, a hand-written getter
      `this[parent][Counter] + 1`, and `adding(Counter, 1)` again: 3, 4, 5, 6.
      A further fork that overrides nothing reads 7, because the inherited
      `adding` re-applies to that fork's own parent. */
  lemma CounterChain()
    ensures var c1 := Declared(map[0 := Lit(Num(3))]);
            var c2 := Forked(c1, Adding(0, 1));
            var c3 := Forked(c2, map[0 := Derive(0, Add(1))]);
            var c4 := Forked(c3, Adding(0, 1));
            var c5 := Forked(c4, map[]);
            && Get(c1, 0) == Ok(Num(3))
            && Get(c2, 0) == Ok(Num(4))
            && Get(c3, 0) == Ok(Num(5))
            && Get(c4, 0) == Ok(Num(6))
            && Get(c5, 0) == Ok(Num(7))
  {
    var c1 := Declared(map[0 := Lit(Num(3))]);
    var c2 := Forked(c1, Adding(0, 1));
    var c3 := Forked(c2, map[0 := Derive(0, Add(1))]);
    var c4 := Forked(c3, Adding(0, 1));
    AddingReads(c1, 0, 1);
    AddingReads(c3, 0, 1);
    InheritedDerivationReapplies(c4, map[], 0, 0, Add(1));
  }

  /** The transform `n => n + 1`. */
  function Incremented(x: Val): Val
  {
    if x.Num? then Num(x.n + 1) else NaN
  }

  /** `changing(Counter, n => n + 1)` on top of the hand-written getter: 4 then 5. */
  lemma ChangingChain()
    ensures var c1 := Declared(map[0 := Lit(Num(3))]);
            var c2 := Forked(c1, map[0 := Derive(0, Add(1))]);
            var c3 := Forked(c2, Changing(0, Incremented));
            && Get(c2, 0) == Ok(Num(4))
            && Get(c3, 0) == Ok(Num(5))
  {
    var c1 := Declared(map[0 := Lit(Num(3))]);
    var c2 := Forked(c1, map[0 := Derive(0, Add(1))]);
    ChangingReads(c2, 0, Incremented);
  }

  /** Todos [first, second]; two appends in sequence, and a sibling fork of
      the root: each fork sees its own append only, and the root is unchanged. */
  lemma TodosAppend(first: Val, second: Val, third: Val, fourth: Val, other: Val)
    ensures var c1 := Declared(map[2 := Lit(Items([first, second]))]);
            var c2 := Forked(c1, Appending(2, third));
            var c3 := Forked(c2, Appending(2, fourth));
            var c2B := Forked(c1, Appending(2, other));
            && Get(c1, 2) == Ok(Items([first, second]))
            && Get(c2, 2) == Ok(Items([first, second, third]))
            && Get(c3, 2) == Ok(Items([first, second, third, fourth]))
            && Get(c2B, 2) == Ok(Items([first, second, other]))
            && Get(Forked(c1, Prepending(2, other)), 2) == Ok(Items([other, first, second]))
  {
    var c1 := Declared(map[2 := Lit(Items([first, second]))]);
    var c2 := Forked(c1, Appending(2, third));
    assert AppendingChain(c1, 2, [third]) == c2 by {
      assert [third][..0] == [];
    }
    assert AppendingChain(c1, 2, [third, fourth]) == Forked(c2, Appending(2, fourth)) by {
      assert [third, fourth][..1] == [third];
    }
    AppendingAccumulates(c1, 2, [first, second], [third, fourth]);
    assert [first, second] + [third, fourth] == [first, second, third, fourth];
    AppendingReads(c1, 2, other);
    PrependingReads(c1, 2, other);
    assert [first, second] + [other] == [first, second, other];
    assert [other] + [first, second] == [other, first, second];
  }
}
